=== FILE: README.md ===
# LimitedPool in Dafny

A model of `LimitedPool`, a bounded object pool written in Go. The pool hands
out items from a slice of idle ones (`free`). When nothing is idle and fewer
than `cap(free)` items are out (`used`), it makes a new item with its
creator. Otherwise the caller joins a FIFO queue of waiters. `Put` walks
that queue front to back. It hands the item to the first waiter whose
`select` takes it, and it skips waiters whose context is done. If no waiter
takes the item, `Put` stores it at the back of `free`. `Count` reports
`(used, cap(free) - used)`.

Every change to the pool's state happens under its mutex. Each operation is
therefore modelled as one atomic, pure transition over an immutable `Pool`
record. `Get` does release the mutex early in two places:

- before it calls the creator (limitedpool.go:40-41), after it has already
  raised `used`;
- before a queued caller waits in its `select` (limitedpool.go:51-52).

Neither step touches the pool's state. So the creator's result is folded into
the `Get` transition, and the wait is represented by the waiter's status.

The project has four files:

- `limitedpool.dfy` (module `LimitedPool`) holds the state, `New`, `Get`, the
  queue scan, `Put`, `Count`, and the way a waiter's status changes.
- `traces.dfy` (module `PoolTraces`) applies runs of events and proves the
  invariant over whole runs.
- `scenarios.dfy` (module `PoolScenarios`) holds concrete runs.
- `corrected.dfy` (module `CorrectedPool`) is the variant that stores its
  limit (see Findings).

Modelling choices:

- **Capacity.** `cap(free)` is `|free| + spare`. Go never stores the limit: it
  reads `cap(free)`. Taking `free[1:]` keeps `spare`, so the capacity drops
  by one on every reuse. An `append` into a full slice grows it by the
  caller-supplied `growth`, so the new capacity can be any value of at least
  `len + 1`.
- **Waiters.** A waiter is a ticket, given out in arrival order, plus a
  snapshot status:
  - `Pending`: not parked, and the context is not done;
  - `Receiving`: parked on its delivery channel;
  - `Cancelled`: the context is done, and the waiter is not receiving;
  - `Both`: the context is done and the waiter is parked.
- **Both ready.** A `Both` waiter is resolved by the oracle `pick`, indexed by
  ticket: it takes the item when `pick` is true and is skipped otherwise.
  This is an over-approximation. Closing the done channel already completes
  the parked `select` on the waiter's side, so Go never hands the item to a
  waiter whose context is done. Go's behaviour is the `pick` that is always
  false, and every lemma here holds for every `pick`.
- **Blocking `Put`.** If `Put`'s loop reaches a `Pending` waiter, the `select`
  blocks with the lock held, so `Put` is not enabled in that state.
- **Creator.** The creator is a parameter `creator: nat -> T`. `creator(n)`
  is the item returned by its n-th call, and the field `created` counts the
  calls.

## Model

| member | source | states |
|---|---|---|
| LimitedPool.New | limitedpool.go:18-25 | The new pool has no idle items, `cap(free)` equal to the limit, zero used, an empty queue and no creator calls. It satisfies the pool invariant. |
| LimitedPool.Get | limitedpool.go:27-58 | Exactly one of three branches runs. Reuse happens iff `free` is non-empty: it returns `free[0]`, leaves the rest of `free`, lowers `cap(free)` by one, raises `used`, and keeps the queue and the ticket counter. Creation happens iff `free` is empty and `used < cap(free)`: it calls the creator once, raises `used`, and keeps `free`, its capacity, the queue and the ticket counter. Otherwise one waiter with the next ticket joins the back of the queue, not receiving and done iff the context was done, and nothing else changes. Only creation changes `used + \|free\|`, raising it by one. The invariant is preserved, including "queue non-empty implies nothing idle and `used >= cap(free)`". |
| LimitedPool.Scan | limitedpool.go:64-73 | The loop over the queue, in queue order. Delivery at index k means waiter k takes the item and every earlier waiter is skipped because its context is done. Blocking at k means waiter k is Pending and every earlier waiter is skipped. Running off the end means every waiter is skipped. |
| LimitedPool.ScanDeliversToFirstTaker | limitedpool.go:64-71 | The scan delivers to index k if and only if k is the first waiter that takes the item and all waiters in front of it are skipped. This is FIFO hand-off. |
| LimitedPool.Put | limitedpool.go:60-78 | On hand-off, the recipient is the first accepting waiter, all earlier waiters were skipped, the new queue is exactly the suffix after the recipient, and nothing else changes. Otherwise every waiter was skipped: the queue empties, the item is appended to `free`, `used` drops by one, `cap(free)` is unchanged when there was spare room and at least `len + 1` otherwise. The item goes to at most one waiter or to `free`, never both. `used + \|free\|` is preserved, and so is the invariant. |
| LimitedPool.PutHandsOffInArrivalOrder | limitedpool.go:64-71 | The recipient's ticket is at least the lowest queued ticket. Every waiter left in the queue arrived after the recipient. |
| LimitedPool.Count | limitedpool.go:80-86 | Returns `used` and `cap(free) - used`, so the two values sum to the current capacity of the idle slice. It is a pure read. |
| LimitedPool.GetQueuesIffCountExhausted | limitedpool.go:80-86 | `Get` queues its caller iff nothing is idle and `Count` reports no room left (`available <= 0`). The same `cap(free)` that `Count` reads at line 83 is compared against `used` by `Get` at line 38. |
| LimitedPool.UpdateWaiter | limitedpool.go:44-57 | The environment moves one waiter's `select` forward: its context fires, or it parks or leaves. A done context stays done. A waiter stops receiving only when its context is done. A waiter that has taken the `ctx.Done()` case, or reached its `select` with the context already done, has returned `nil` and stays Cancelled. The named waiter takes the new status whenever that move is allowed, and no other waiter changes. Tickets, `free`, `used` and the invariant are kept. |
| PoolTraces.StepKeepsInvariant | limitedpool.go:27-78 | Any single `Get`, `Put` or waiter change keeps the invariant, including `used + \|free\| == created`. It never lowers the lowest servable ticket, and it serves at most one ticket, which lies between the old and the new lowest. |
| PoolTraces.RunKeepsInvariant | limitedpool.go:27-78 | Over any run from a valid pool, the invariant holds at the end. The tickets served strictly increase, so each waiter is served at most once and in arrival order, and none is below the lowest ticket servable at the start. |
| PoolTraces.RemovedBelowLowTicket | limitedpool.go:64-71 | Every waiter a `Put` removes from the front of the queue has a ticket below the lowest ticket still queued afterwards. |
| PoolTraces.SkippedWaiterNeverServed | limitedpool.go:64-71 | A waiter that a `Put` removes without handing it the item was skipped because its context was done. No later run of events hands that waiter's ticket an item. |
| PoolTraces.PutSkipsCancelled | limitedpool.go:64-71 | `Put` never hands the item to a Cancelled waiter. The waiter either leaves the queue with a ticket below the lowest one still queued, or stays queued and unchanged behind the recipient. |
| PoolTraces.CancelledNeverServed | limitedpool.go:52-71 | Over any run of events from a valid pool, no item goes to a waiter that is Cancelled at the start, nor to a ticket that has already left the queue. A waiter that returned `nil` is never also handed an item. |
| PoolTraces.RunFromNew | limitedpool.go:18-78 | From `New`, after any run, `used + \|free\|` equals the number of creator calls. Hand-offs go to strictly increasing tickets. A non-empty queue implies that nothing is idle and `used >= cap(free)`. |
| PoolScenarios.CapacityDrift | limitedpool.go:30-43 | With limit 2, the run create, return, reuse leaves `used == 1` and `cap(free) == 1`. The next `Get` queues, and `Count` is (1, 0). |
| PoolScenarios.ExceedsLimit | limitedpool.go:30-41 | With limit 1, the run create, return, reuse, return into a full slice, reuse, `Get` makes the creator's second call when the reallocation leaves 2 spare slots (capacity 3, a value the model allows; Go's `append` picks capacity 1 at this size). Two items then exist although the limit is 1. |
| PoolScenarios.GetsCreate | limitedpool.go:38-41 | With nothing idle, nobody queued and room for `n` more items out, `n` `Get`s in a row each call the creator: `used` and the creator-call count both rise by `n`, and nothing else changes. |
| PoolScenarios.GetsReuse | limitedpool.go:30-35 | With at least `n` items idle, `n` `Get`s take the first `n` of them, lowering `cap(free)` by `n` and raising `used` by `n`; nothing else changes. |
| PoolScenarios.PutsStore | limitedpool.go:74-77 | With nobody queued and spare room for every item, the `Put`s append the items to `free` in order, use up that much spare room and lower `used` by the number of items; `cap(free)` is unchanged. |
| PoolScenarios.ExceedsAnyLimit | limitedpool.go:30-41 | For every limit `L >= 1`: `L` `Get`s create `L` items, `L` `Put`s return them, a `Get` reuses item 0 and leaves the slice full at capacity `L - 1`, its `Put` reallocates with `growth` spare slots, and `L` `Get`s take every idle item. If `growth > L`, the next `Get` calls the creator an `L + 1`-th time, so `L + 1` items exist. With `L` 26 and Go's growth from capacity 25 to 56, `growth` is 30. |
| PoolScenarios.ReuseReturnsSameItem | limitedpool.go:30-35 | With limit 1, the run `Get`, `Put`, `Get` returns the same item with a single creator call. `Count` is then (1, -1). |
| PoolScenarios.CountAfterGetsAndPut | limitedpool.go:80-86 | With limit 3, two `Get`s give `Count` (2, 1), and one `Put` then gives (1, 2). |
| PoolScenarios.ThreeGetsQueue | limitedpool.go:44-51 | With limit 1 and the item out, three `Get`s queue as tickets 0, 1 and 2, in order. |
| PoolScenarios.WaitersMove | limitedpool.go:52-57 | The three waiters move to Receiving, Cancelled and Receiving. |
| PoolScenarios.HandOffSkipsCancelled | limitedpool.go:64-73 | The first `Put` serves ticket 0. The second skips the cancelled ticket 1 and serves ticket 2. The queue ends empty and nothing is idle. |
| PoolScenarios.CancelledWaiterGetsNothing | limitedpool.go:64-77 | A waiter whose context was done when it queued is skipped. The item is stored in `free` and `used` drops to 0. |
| PoolScenarios.LeftWaiterStaysLeft | limitedpool.go:52-56 | A queued waiter that has returned `nil` cannot move to Both. A `Put` whose scheduler would always choose delivery therefore skips it and stores the item, and `used` drops to 0. |
| PoolScenarios.NoCapacityDrift | limitedpool.go:30-43 | In the corrected pool, the drifting run gives `Count` (1, 1), and the next `Get` creates the second item. |
| CorrectedPool.FixedNew | limitedpool.go:18-25 | Corrected: the pool stores its limit. The new pool is empty and valid. |
| CorrectedPool.FixedGet | limitedpool.go:27-58 | Corrected: reuse iff something is idle (returns `free[0]`, raises `used`, keeps the queue, creator calls and tickets); creation iff nothing is idle and `used < limit` (one creator call, raises `used`, keeps `free` and the queue); otherwise the caller joins the back of the queue with the next ticket, Cancelled iff its context was done, and nothing else changes. The limit never changes, and the capacity invariant holds: items in existence never exceed the limit. |
| CorrectedPool.FixedPut | limitedpool.go:60-78 | Corrected: on hand-off, the recipient is the first waiter that takes the item, every earlier one was skipped, the queue becomes the suffix after the recipient, and nothing else changes. Otherwise every waiter was skipped, the queue empties, the item joins the back of `free` and `used` drops by one. The limit and the invariant are kept. |
| CorrectedPool.PutKeepsFixedValid | limitedpool.go:60-78 | The queue walk and store of `Put`, applied to a corrected pool, keep the corrected invariant, including `created <= limit`. |
| CorrectedPool.FixedGetAgrees | limitedpool.go:27-58 | While `cap(free)` still equals the limit, the corrected `Get` gives the same result, idle items, `used`, queue, creator calls and tickets as the as-written `Get`. |
| CorrectedPool.FixedPutAgrees | limitedpool.go:60-78 | Whatever the idle slice's capacity, the corrected `Put` hands the item to the same waiter (or to none) as the as-written `Put`, leaving the same queue, idle items and `used`. |
| CorrectedPool.FixedCount | limitedpool.go:80-86 | Corrected: `used + available` equals the stored limit. |
| CorrectedPool.NeverQueuesBelowLimit | limitedpool.go:38-42 | Corrected: while fewer than `limit` items are out, `Get` never queues, and `Count` reports room. |

## Left out

- Locking. The `sync.RWMutex` locking is not modelled: each operation is one atomic step. Other goroutines may run while `Get` calls the creator with the lock released (limitedpool.go:40-41). The model ignores that interleaving, because the creator does not touch the pool.
- Blocking in `Get`. Once a caller is queued, its `Get` is not modelled as a blocking call. It returns a ticket, and the waiter's result is the `Put` that serves that ticket. A waiter that is skipped, or that leaves through its context, gets `nil`.
- Channels. The channel mechanics are not modelled: closing `wait`, a receive on a closed channel yielding `nil`, and a nil `ctx.Done()`.
- The body of the creator, an opaque function. It is the parameter `creator`.
- A failing creator. The creator is total in the model. In Go, a creator that panics at limitedpool.go:41 runs after `used++` at :39, and nothing rolls the count back, so every such panic permanently costs the pool one slot.
- Dynamic typing. `interface{}` becomes a type parameter `T`. `Put(nil)` cannot be told apart from a cancelled `nil` result in Go, and the model does not represent that.
- Go's `append` growth policy, which is defined by the runtime. When `Put` appends into a full slice, the new capacity is any value of at least `len + 1`. The as-written pool can therefore exceed its limit (see Findings, `PoolScenarios.ExceedsLimit` and `PoolScenarios.ExceedsAnyLimit`).
- Negative limits. `make` panics on a negative limit; `New` takes a `nat`.
- Overflow. `used` is an unbounded `int`, so Go's 64-bit wrap-around is not modelled. It would need about 2^63 `Put`s without a `Get`.
- LimitedPool.Put: the caller obligation that the item came from `Get` is not modelled. The source does not check it either, so `used` may become negative.
- Pending waiters. A waiter that has queued but is not yet parked and whose context is not done is `Pending`. A `Put` whose loop reaches such a waiter would block with the lock held. The model excludes that state through `Put`'s precondition, and does not model the wait.

## Findings

| source | as written | input that shows it | evidently intended | confidence | as-written member | corrected member |
|---|---|---|---|---|---|---|
| limitedpool.go:32 | Reuse takes `free[1:]`, which lowers `cap(free)` by one. Lines 38 and 83 read `cap(free)` as the limit, so the pool's effective limit shrinks with every reuse. | `New(2)`, `Get`, `Put`, `Get`: one item is out but `cap(free)` is 1. A further `Get` blocks instead of creating the second item, and `Count` reports (1, 0) instead of (1, 1). With `New(1)`, the same run gives `Count` (1, -1). | The limit passed to `New` bounds the items out: `Get` creates whenever nothing is idle and `used < limit`, and `Count` reports `(used, limit - used)`. | high, not executed | PoolScenarios.CapacityDrift | CorrectedPool.FixedGet |
| limitedpool.go:76 | After reuses have shrunk `cap(free)`, the `append` into a full slice reallocates it. The runtime may choose a capacity above the limit. Line 38 then lets `Get` create items beyond the limit. | In the model, for every limit `L` and every reallocation that leaves more than `L` spare slots: `New(L)`, `L` `Get`s, `L` `Put`s, `Get`, `Put`, `L` `Get`s, `Get`: the last `Get` calls the creator an `L + 1`-th time. Go's growth policy, read from the runtime source, gives such a reallocation at `L` 26: 26 `Get`s, 26 `Put`s, `Get`, `Put` grows the capacity from 25 to 56. After 26 more `Get`s, `cap(free)` is 30 with 26 out, so the next `Get` creates a 27th item. | Items in existence never exceed the limit passed to `New`. | medium, not executed (the Go capacities come from reading the runtime's growth rule, which depends on the Go version) | PoolScenarios.ExceedsAnyLimit | CorrectedPool.FixedGet |

The rest of the model follows the code as written: `LimitedPool` carries
`cap(free)` faithfully. The corrected pool uses the same queue scan, with the
limit stored in the record. Its invariant `FixedValid` includes
`created <= limit`, and `FixedGet` and `FixedPut` preserve it. This fixes
both rows above. `FixedGetAgrees` and `FixedPutAgrees` show that the
corrected operations behave like the as-written ones until the capacity of
the idle slice drifts away from the limit.

=== FILE: corrected.dfy ===
/**
 The pool as intended: the limit is stored once and never
 drifts, so `Get` creates a new item whenever fewer than `limit` are out and
 nothing is idle, and `Count` reports `(used, limit - used)`. Taking from
 the front of the idle slice leaves the limit alone. The waiter scan is the
 one `LimitedPool` models.
 */
module CorrectedPool {
  import opened LimitedPool

  datatype Fixed<T> = Fixed(
    limit: nat,
    free: seq<T>,
    used: int,
    queue: seq<Waiter>,
    created: nat,
    nextTicket: nat)

  /** The capacity invariant: items in existence never exceed the limit, and
      acquirers wait only when the pool is really exhausted. */
  predicate FixedValid<T>(p: Fixed<T>) {
    && p.used + |p.free| == p.created
    && p.created <= p.limit
    && Ascending(p.queue)
    && (forall i :: 0 <= i < |p.queue| ==> p.queue[i].ticket < p.nextTicket)
    && (|p.queue| > 0 ==> |p.free| == 0 && p.used >= p.limit)
  }

  function FixedNew<T>(limit: nat): (p: Fixed<T>)
    ensures p.limit == limit && p.free == [] && p.used == 0 && p.queue == []
    ensures FixedValid(p)
  {
    Fixed(limit, [], 0, [], 0, 0)
  }

  datatype FixedGetStep<T> = FixedGetStep(pool: Fixed<T>, got: Acquired<T>)

  /** `Get` against the stored limit. */
  function FixedGet<T>(p: Fixed<T>, creator: nat -> T, ctxDone: bool): (r: FixedGetStep<T>)
    // reuse branch
    ensures r.got.Reused? <==> |p.free| > 0
    ensures r.got.Reused? ==>
      && p.free == [r.got.item] + r.pool.free
      && r.pool.used == p.used + 1
      && r.pool.queue == p.queue && r.pool.created == p.created
      && r.pool.nextTicket == p.nextTicket
    // fresh-create branch
    ensures r.got.Created? <==> |p.free| == 0 && p.used < p.limit
    ensures r.got.Created? ==>
      && r.got.item == creator(p.created)
      && r.pool.created == p.created + 1
      && r.pool.used == p.used + 1
      && r.pool.free == p.free && r.pool.queue == p.queue
      && r.pool.nextTicket == p.nextTicket
    // enqueue branch
    ensures r.got.Queued? <==> |p.free| == 0 && p.used >= p.limit
    ensures r.got.Queued? ==>
      && r.got.ticket == p.nextTicket
      && r.pool.queue == p.queue + [Waiter(p.nextTicket, if ctxDone then Cancelled else Pending)]
      && r.pool.free == p.free && r.pool.used == p.used && r.pool.created == p.created
      && r.pool.nextTicket == p.nextTicket + 1
    ensures r.pool.limit == p.limit
    ensures FixedValid(p) ==> FixedValid(r.pool)
  {
    if |p.free| > 0 then
      FixedGetStep(p.(free := p.free[1..], used := p.used + 1), Reused(p.free[0]))
    else if p.used < p.limit then
      FixedGetStep(p.(used := p.used + 1, created := p.created + 1), Created(creator(p.created)))
    else
      var w := Waiter(p.nextTicket, if ctxDone then Cancelled else Pending);
      FixedGetStep(p.(queue := p.queue + [w], nextTicket := p.nextTicket + 1), Queued(p.nextTicket))
  }

  datatype FixedPutStep<T> = FixedPutStep(pool: Fixed<T>, handedTo: Option<nat>)

  /** The as-written pool with the same idle items, items out, queue and
      counters, and `spare` free slots in its idle slice. */
  function AsPool<T>(p: Fixed<T>, spare: nat): (q: Pool<T>)
    ensures q.free == p.free && q.used == p.used && q.queue == p.queue
    ensures q.created == p.created && q.nextTicket == p.nextTicket
    ensures q.FreeCap() == |p.free| + spare
  {
    Pool(p.free, spare, p.used, p.queue, p.created, p.nextTicket)
  }

  /** `Put` with the same scan; only the idle slice's capacity is gone, so
      the store branch no longer needs `growth`. */
  function FixedPut<T>(p: Fixed<T>, item: T, pick: nat -> bool): (r: FixedPutStep<T>)
    requires !Scan(p.queue, pick).Blocked?
    // hand-off: the first waiter that takes the item gets it, the ones
    // before it were cancelled, and the queue keeps what follows it
    ensures r.handedTo.Some? ==>
      && |r.pool.queue| < |p.queue|
      && r.pool.queue == p.queue[|p.queue| - |r.pool.queue|..]
      && r.pool.free == p.free && r.pool.used == p.used
      && r.pool.created == p.created && r.pool.nextTicket == p.nextTicket
    ensures r.handedTo.Some? ==>
      var k := |p.queue| - |r.pool.queue| - 1;
      && 0 <= k < |p.queue|
      && p.queue[k].ticket == r.handedTo.value
      && Takes(p.queue[k], pick)
      && (forall j :: 0 <= j < k ==> Skips(p.queue[j], pick))
    // store: every waiter was cancelled, the queue empties and the item joins
    // the back of the idle slice
    ensures r.handedTo.None? ==>
      && (forall j :: 0 <= j < |p.queue| ==> Skips(p.queue[j], pick))
      && r.pool.queue == []
      && r.pool.free == p.free + [item]
      && r.pool.used == p.used - 1
      && r.pool.created == p.created && r.pool.nextTicket == p.nextTicket
    ensures r.pool.limit == p.limit
    ensures FixedValid(p) ==> FixedValid(r.pool)
  {
    var r := Put(AsPool(p, 0), item, pick, 0);
    PutKeepsFixedValid(p, item, pick);
    FixedPutStep(p.(queue := r.pool.queue, free := r.pool.free, used := r.pool.used), r.handedTo)
  }

  /** The as-written `Put` on a corrected pool keeps the corrected invariant:
      a hand-off leaves `free` and `used` as they were, and a store empties
      the queue. */
  lemma PutKeepsFixedValid<T>(p: Fixed<T>, item: T, pick: nat -> bool)
    requires !Scan(p.queue, pick).Blocked?
    ensures var r := Put(AsPool(p, 0), item, pick, 0).pool;
      FixedValid(p) ==> FixedValid(p.(queue := r.queue, free := r.free, used := r.used))
  {
    if FixedValid(p) {
      assert Valid(AsPool(p, 0));
    }
  }

  /** While the idle slice's capacity still equals the limit, the corrected
      `Get` does exactly what the as-written `Get` does. */
  lemma FixedGetAgrees<T>(p: Fixed<T>, creator: nat -> T, ctxDone: bool)
    requires |p.free| <= p.limit
    ensures var f := FixedGet(p, creator, ctxDone);
      var g := Get(AsPool(p, p.limit - |p.free|), creator, ctxDone);
      && f.got == g.got
      && f.pool.free == g.pool.free && f.pool.used == g.pool.used
      && f.pool.queue == g.pool.queue
      && f.pool.created == g.pool.created && f.pool.nextTicket == g.pool.nextTicket
  {
  }

  /** The corrected `Put` walks the queue exactly as the as-written one does:
      the same waiter gets the item, or none does, whatever the idle slice's
      capacity. */
  lemma FixedPutAgrees<T>(p: Fixed<T>, item: T, pick: nat -> bool, spare: nat, growth: nat)
    requires !Scan(p.queue, pick).Blocked?
    ensures var f := FixedPut(p, item, pick);
      var g := Put(AsPool(p, spare), item, pick, growth);
      && f.handedTo == g.handedTo
      && f.pool.free == g.pool.free && f.pool.used == g.pool.used
      && f.pool.queue == g.pool.queue
  {
  }

  /** `Count` against the stored limit: `available` is the limit minus the
      items out, whatever has been reused before. */
  function FixedCount<T>(p: Fixed<T>): (r: (int, int))
    ensures r.0 == p.used && r.0 + r.1 == p.limit
  {
    (p.used, p.limit - p.used)
  }

  /** While fewer than `limit` items are out, `Get` never makes its caller
      wait: it reuses an idle item or creates one. */
  lemma NeverQueuesBelowLimit<T>(p: Fixed<T>, creator: nat -> T, ctxDone: bool)
    requires p.used < p.limit
    ensures !FixedGet(p, creator, ctxDone).got.Queued?
    ensures FixedCount(p).1 > 0
  {
  }
}

=== FILE: limitedpool.dfy ===
/**
 A sequential model of `LimitedPool`, a bounded object pool.

 The pool keeps a slice of idle items, a count of checked-out items and a
 FIFO queue of blocked acquirers. Every change to that state happens under
 one mutex, so each operation is modelled here as one atomic transition over
 an immutable `Pool` record. `Get` releases the mutex before it calls the
 creator and before a queued caller waits; neither touches the pool state,
 so the creator's result is folded into the transition and the wait is left
 to the waiter's status. Blocked acquirers are abstracted to a snapshot of their two
 channels (is the context done? is the goroutine parked on its delivery
 channel?). A waiter with both is resolved by an oracle parameter that may
 let it take the item or skip it; this allows more than Go does (see
 `Takes`), and every property proved here holds for every oracle.
 */
module LimitedPool {

  datatype Option<T> = None | Some(value: T)

  /** What a queued waiter's `select` could do right now.
      Pending:   not yet parked and context not done (a sender would block);
      Receiving: parked on its delivery channel, context not done;
      Cancelled: context done, not receiving;
      Both:      context done and parked, so `select` may take either case. */
  datatype WaiterStatus = Pending | Receiving | Cancelled | Both

  predicate IsDone(s: WaiterStatus) {
    s == Cancelled || s == Both
  }

  predicate IsReceiving(s: WaiterStatus) {
    s == Receiving || s == Both
  }

  /** A waiter's status can only move forward: a done context stays done, a
      parked goroutine stops receiving only by taking the cancellation case,
      and a goroutine that has taken that case (or that reaches its `select`
      with the context already done) has returned and never receives again. */
  predicate StatusStep(a: WaiterStatus, b: WaiterStatus) {
    && (IsDone(a) ==> IsDone(b))
    && (IsReceiving(a) && !IsReceiving(b) ==> IsDone(b))
    && (a == Cancelled ==> b == Cancelled)
  }

  /** A queued acquirer. Tickets are handed out in arrival order. */
  datatype Waiter = Waiter(ticket: nat, status: WaiterStatus)

  /** The pool state. `free` is the idle slice and `spare` the room between its
      length and its capacity, so `cap(free)` is `|free| + spare`. `created`
      counts the calls made to the creator, and `nextTicket` is the ticket the
      next queued acquirer gets. */
  datatype Pool<T> = Pool(
    free: seq<T>,
    spare: nat,
    used: int,
    queue: seq<Waiter>,
    created: nat,
    nextTicket: nat)
  {
    /** `cap(free)`, the bound the code reads as its limit. */
    function FreeCap(): nat {
      |free| + spare
    }
  }

  /** Queue tickets strictly increase from front to back. */
  predicate Ascending(q: seq<Waiter>) {
    forall i, j :: 0 <= i < j < |q| ==> q[i].ticket < q[j].ticket
  }

  /** The invariant every reachable pool keeps. */
  predicate Valid<T>(p: Pool<T>) {
    && p.used + |p.free| == p.created
    && Ascending(p.queue)
    && (forall i :: 0 <= i < |p.queue| ==> p.queue[i].ticket < p.nextTicket)
    && (|p.queue| > 0 ==> |p.free| == 0 && p.used >= p.FreeCap())
  }

  /** The lowest ticket a future hand-off can go to. */
  function LowTicket<T>(p: Pool<T>): nat {
    if |p.queue| > 0 then p.queue[0].ticket else p.nextTicket
  }

  /** `New(limit, creator)`: an empty idle slice of capacity `limit`. */
  function New<T>(limit: nat): (p: Pool<T>)
    ensures p.free == [] && p.FreeCap() == limit
    ensures p.used == 0 && p.queue == [] && p.created == 0
    ensures Valid(p)
  {
    Pool([], limit, 0, [], 0, 0)
  }

  /** What `Get` gave its caller: an idle item, a freshly created one, or a
      place in the queue (the waiter's eventual result comes from `Put`). */
  datatype Acquired<T> = Reused(item: T) | Created(item: T) | Queued(ticket: nat)

  datatype GetStep<T> = GetStep(pool: Pool<T>, got: Acquired<T>)

  /** `Get(ctx)`. `creator(n)` is the item the creator returns on its n-th call;
      `ctxDone` is whether the context was already done when the caller queued. */
  function Get<T>(p: Pool<T>, creator: nat -> T, ctxDone: bool): (r: GetStep<T>)
    // reuse branch
    ensures r.got.Reused? <==> |p.free| > 0
    ensures r.got.Reused? ==>
      && p.free == [r.got.item] + r.pool.free
      && r.pool.FreeCap() + 1 == p.FreeCap()
      && r.pool.used == p.used + 1
      && r.pool.queue == p.queue && r.pool.created == p.created
      && r.pool.spare == p.spare && r.pool.nextTicket == p.nextTicket
    // fresh-create branch
    ensures r.got.Created? <==> |p.free| == 0 && p.used < p.FreeCap()
    ensures r.got.Created? ==>
      && r.got.item == creator(p.created)
      && r.pool.created == p.created + 1
      && r.pool.used == p.used + 1
      && r.pool.free == p.free && r.pool.FreeCap() == p.FreeCap()
      && r.pool.queue == p.queue
      && r.pool.spare == p.spare && r.pool.nextTicket == p.nextTicket
    // enqueue branch
    ensures r.got.Queued? <==> |p.free| == 0 && p.used >= p.FreeCap()
    ensures r.got.Queued? ==>
      && |r.pool.queue| == |p.queue| + 1
      && r.pool.queue[..|p.queue|] == p.queue
      && r.pool.queue[|p.queue|].ticket == r.got.ticket == p.nextTicket
      && IsDone(r.pool.queue[|p.queue|].status) == ctxDone
      && !IsReceiving(r.pool.queue[|p.queue|].status)
      && r.pool == p.(queue := r.pool.queue, nextTicket := p.nextTicket + 1)
    // only a fresh creation changes the number of items in existence
    ensures r.pool.used + |r.pool.free| == p.used + |p.free| + (if r.got.Created? then 1 else 0)
    ensures r.pool.nextTicket >= p.nextTicket
    ensures Valid(p) ==> Valid(r.pool) && LowTicket(r.pool) == LowTicket(p)
  {
    if |p.free| > 0 then
      GetStep(p.(free := p.free[1..], used := p.used + 1), Reused(p.free[0]))
    else if p.used < p.FreeCap() then
      GetStep(p.(used := p.used + 1, created := p.created + 1), Created(creator(p.created)))
    else
      var w := Waiter(p.nextTicket, if ctxDone then Cancelled else Pending);
      GetStep(p.(queue := p.queue + [w], nextTicket := p.nextTicket + 1), Queued(p.nextTicket))
  }

  /** In `Put`'s `select`, the waiter receives the item. A waiter in state Both
      goes either way, as `pick` says. This over-approximates Go: closing the
      done channel already completes a parked `select`, so Go never hands the
      item to such a waiter; the Go behaviour is the `pick` that is always
      false. */
  predicate Takes(w: Waiter, pick: nat -> bool) {
    w.status == Receiving || (w.status == Both && pick(w.ticket))
  }

  /** In `Put`'s `select`, the waiter's done case fires and it is skipped. */
  predicate Skips(w: Waiter, pick: nat -> bool) {
    w.status == Cancelled || (w.status == Both && !pick(w.ticket))
  }

  /** How `Put`'s loop over the queue ends: handing the item to the waiter at
      `index`, running off the end, or blocking (with the lock held) on a
      waiter whose `select` cannot proceed. */
  datatype ScanResult = Deliver(index: nat) | Exhausted | Blocked(index: nat)

  /** The loop over the queue, front to back. */
  function Scan(q: seq<Waiter>, pick: nat -> bool): (r: ScanResult)
    ensures r.Deliver? ==> r.index < |q| && Takes(q[r.index], pick)
    ensures r.Blocked? ==> r.index < |q| && q[r.index].status == Pending
    ensures r.Deliver? || r.Blocked? ==>
      forall j :: 0 <= j < r.index ==> Skips(q[j], pick)
    ensures r.Exhausted? ==> forall j :: 0 <= j < |q| ==> Skips(q[j], pick)
  {
    if |q| == 0 then Exhausted
    else if Takes(q[0], pick) then Deliver(0)
    else if q[0].status == Pending then Blocked(0)
    else
      match Scan(q[1..], pick)
      case Deliver(k) => Deliver(k + 1)
      case Blocked(k) => Blocked(k + 1)
      case Exhausted => Exhausted
  }

  /** The scan delivers to waiter `k` exactly when `k` is the first waiter that
      takes the item and every waiter in front of it is skipped. */
  lemma ScanDeliversToFirstTaker(q: seq<Waiter>, pick: nat -> bool, k: nat)
    ensures Scan(q, pick) == Deliver(k) <==>
      k < |q| && Takes(q[k], pick) && forall j :: 0 <= j < k ==> Skips(q[j], pick)
  {
    if k < |q| && Takes(q[k], pick) && forall j :: 0 <= j < k ==> Skips(q[j], pick) {
      var s := Scan(q, pick);
      // whatever index the scan stops at, it cannot lie before `k` (that
      // waiter is skipped), and it cannot lie past `k` or run off the end
      // (waiter `k` takes the item)
      assert !s.Exhausted? && s.index < k ==> Skips(q[s.index], pick);
      assert (s.Exhausted? || s.index > k) ==> Skips(q[k], pick);
    }
  }

  /** `Put` returns the new pool and the ticket of the waiter that received the
      item, if any. */
  datatype PutStep<T> = PutStep(pool: Pool<T>, handedTo: Option<nat>)

  /** Dropping waiters from the front of the queue keeps the invariant. */
  lemma DropFrontKeepsValid<T>(p: Pool<T>, n: nat)
    requires n <= |p.queue|
    ensures |p.queue[n..]| == |p.queue| - n
    ensures Valid(p) ==> Valid(p.(queue := p.queue[n..]))
  {
    var rest := p.queue[n..];
    assert forall i :: 0 <= i < |rest| ==> rest[i] == p.queue[n + i];
  }

  /** `Put`'s hand-off branch: waiter `k` receives the item, the queue keeps
      only the waiters after it, and the invariant survives. */
  lemma HandOffKeepsValid<T>(p: Pool<T>, k: nat)
    requires k < |p.queue|
    ensures var q := p.(queue := p.queue[k + 1..]);
      && |q.queue| == |p.queue| - k - 1
      && q.free == p.free && q.spare == p.spare && q.used == p.used
      && q.created == p.created && q.nextTicket == p.nextTicket
      && (Valid(p) ==> Valid(q))
  {
    DropFrontKeepsValid(p, k + 1);
  }

  /** `Put`'s store branch: with the queue cleared, appending the item while
      lowering `used` keeps the invariant. */
  lemma StoreKeepsValid<T>(p: Pool<T>, item: T, spare: nat)
    ensures var q := p.(queue := [], free := p.free + [item], spare := spare, used := p.used - 1);
      && q.created == p.created && q.nextTicket == p.nextTicket
      && q.FreeCap() == |p.free| + 1 + spare
      && (Valid(p) ==> Valid(q))
  {
  }

  /** `Put(item)`. `pick` resolves waiters in state Both; `growth` is the extra
      room Go's `append` leaves when it has to grow a full slice. */
  function Put<T>(p: Pool<T>, item: T, pick: nat -> bool, growth: nat): (r: PutStep<T>)
    requires !Scan(p.queue, pick).Blocked?
    // hand-off: the first waiter that takes the item gets it, the ones
    // before it were cancelled, and the queue keeps what follows it
    ensures r.handedTo.Some? ==>
      && |r.pool.queue| < |p.queue|
      && r.pool.queue == p.queue[|p.queue| - |r.pool.queue|..]
      && r.pool.free == p.free && r.pool.spare == p.spare && r.pool.used == p.used
      && r.pool.created == p.created && r.pool.nextTicket == p.nextTicket
    ensures r.handedTo.Some? ==>
      var k := |p.queue| - |r.pool.queue| - 1;
      && 0 <= k < |p.queue|
      && p.queue[k].ticket == r.handedTo.value
      && Takes(p.queue[k], pick)
      && (forall j :: 0 <= j < k ==> Skips(p.queue[j], pick))
    // store: every waiter was cancelled, the queue empties and the item joins
    // the back of the idle slice
    ensures r.handedTo.None? ==>
      && (forall j :: 0 <= j < |p.queue| ==> Skips(p.queue[j], pick))
      && r.pool.queue == []
      && r.pool.free == p.free + [item]
      && r.pool.used == p.used - 1
      && (p.spare > 0 ==> r.pool.FreeCap() == p.FreeCap())
      && r.pool.FreeCap() >= |p.free| + 1
      && r.pool.created == p.created && r.pool.nextTicket == p.nextTicket
    // the item is never lost and never duplicated
    ensures r.pool.used + |r.pool.free| == p.used + |p.free|
    ensures Valid(p) ==> Valid(r.pool)
  {
    var scan := Scan(p.queue, pick);
    if scan.Deliver? then
      var k := scan.index;
      var rest := p.queue[k + 1..];
      HandOffKeepsValid(p, k);
      assert |p.queue| - |rest| - 1 == k;
      PutStep(p.(queue := rest), Some(p.queue[k].ticket))
    else
      var spare := if p.spare > 0 then p.spare - 1 else growth;
      StoreKeepsValid(p, item, spare);
      PutStep(p.(queue := [], free := p.free + [item], spare := spare, used := p.used - 1), None)
  }

  /** Hand-offs follow arrival order: the recipient is at or after the lowest
      queued ticket, and every waiter left in the queue arrived after it. */
  lemma PutHandsOffInArrivalOrder<T>(p: Pool<T>, item: T, pick: nat -> bool, growth: nat)
    requires Valid(p) && !Scan(p.queue, pick).Blocked?
    ensures var r := Put(p, item, pick, growth);
      r.handedTo.Some? ==>
        && LowTicket(p) <= r.handedTo.value < LowTicket(r.pool)
        && forall i :: 0 <= i < |r.pool.queue| ==> r.handedTo.value < r.pool.queue[i].ticket
    ensures var r := Put(p, item, pick, growth);
      r.handedTo.None? ==> LowTicket(p) <= LowTicket(r.pool)
  {
    var r := Put(p, item, pick, growth);
    if r.handedTo.Some? {
      var k := |p.queue| - |r.pool.queue| - 1;
      assert r.pool.queue == p.queue[k + 1..];
      forall i | 0 <= i < |r.pool.queue|
        ensures r.handedTo.value < r.pool.queue[i].ticket
      {
        assert r.pool.queue[i] == p.queue[k + 1 + i];
      }
      if k > 0 {
        assert p.queue[0].ticket < p.queue[k].ticket;
      }
    } else if |p.queue| > 0 {
      assert p.queue[0].ticket < p.nextTicket;
    }
  }

  /** `Count()`: the used count, and the capacity of the idle slice minus it. */
  function Count<T>(p: Pool<T>): (r: (int, int))
    ensures r.0 == p.used
    ensures r.0 + r.1 == p.FreeCap()
  {
    (p.used, p.FreeCap() - p.used)
  }

  /** `Count` and `Get` agree on when the pool is exhausted: `Get` queues
      exactly when nothing is idle and `Count` reports no room left. */
  lemma GetQueuesIffCountExhausted<T>(p: Pool<T>, creator: nat -> T, ctxDone: bool)
    ensures Get(p, creator, ctxDone).got.Queued? <==> |p.free| == 0 && Count(p).1 <= 0
  {
  }

  /** The environment moves waiter `ticket` to status `s` (its context fires,
      or its goroutine parks in or leaves its `select`), when that is a step a
      waiter can take; nothing else changes. */
  function UpdateWaiter<T>(p: Pool<T>, ticket: nat, s: WaiterStatus): (r: Pool<T>)
    ensures r == p.(queue := r.queue)
    ensures |r.queue| == |p.queue|
    ensures forall i :: 0 <= i < |p.queue| ==>
      && r.queue[i].ticket == p.queue[i].ticket
      && StatusStep(p.queue[i].status, r.queue[i].status)
      && (r.queue[i].status != p.queue[i].status ==> p.queue[i].ticket == ticket && r.queue[i].status == s)
    ensures forall i :: 0 <= i < |p.queue| && p.queue[i].ticket == ticket && StatusStep(p.queue[i].status, s) ==>
      r.queue[i].status == s
    ensures Valid(p) ==> Valid(r) && LowTicket(r) == LowTicket(p)
  {
    var q := seq(|p.queue|, i requires 0 <= i < |p.queue| =>
      var w := p.queue[i];
      if w.ticket == ticket && StatusStep(w.status, s) then w.(status := s) else w);
    p.(queue := q)
  }
}

=== FILE: scenarios.dfy ===
/**
 Concrete runs of `LimitedPool`, with the creator returning its call number
 as the item. They pin down what the code does on small inputs, including
 the way reuse from the front of the idle slice shrinks `cap(free)`.
 */
module PoolScenarios {
  import opened LimitedPool
  import opened CorrectedPool

  function Mint(n: nat): nat { n }

  function NeverPick(t: nat): bool { false }

  function AlwaysPick(t: nat): bool { true }

  /** One `Get` that reuses the front idle item. */
  lemma ReuseStep(p: Pool<nat>)
    requires |p.free| > 0
    ensures Get(p, Mint, false) == GetStep(p.(free := p.free[1..], used := p.used + 1), Reused(p.free[0]))
  {
  }

  /** One `Get` that calls the creator. */
  lemma CreateStep(p: Pool<nat>)
    requires p.free == [] && p.used < p.FreeCap()
    ensures Get(p, Mint, false) == GetStep(p.(used := p.used + 1, created := p.created + 1), Created(p.created))
  {
  }

  /** One `Get` that queues its caller. */
  lemma QueueStep(p: Pool<nat>, ctxDone: bool)
    requires p.free == [] && p.used >= p.FreeCap()
    ensures Get(p, Mint, ctxDone) ==
      GetStep(p.(queue := p.queue + [Waiter(p.nextTicket, if ctxDone then Cancelled else Pending)],
                 nextTicket := p.nextTicket + 1),
              Queued(p.nextTicket))
  {
  }

  /** One `Put` with nobody waiting and room left in the idle slice. */
  lemma StoreStep(p: Pool<nat>, item: nat)
    requires p.queue == [] && p.spare > 0
    ensures Put(p, item, NeverPick, 0) == PutStep(p.(free := p.free + [item], spare := p.spare - 1, used := p.used - 1), None)
  {
    assert Scan(p.queue, NeverPick) == Exhausted;
  }

  /** One `Put` with nobody waiting into a full idle slice: `append`
      reallocates it with `growth` spare slots. */
  lemma GrowStep(p: Pool<nat>, item: nat, growth: nat)
    requires p.queue == [] && p.spare == 0
    ensures Put(p, item, NeverPick, growth) == PutStep(p.(free := p.free + [item], spare := growth, used := p.used - 1), None)
  {
    assert Scan(p.queue, NeverPick) == Exhausted;
  }

  /** One waiter's status change, in a queue whose tickets are distinct. */
  lemma MoveStep(p: Pool<nat>, i: nat, s: WaiterStatus)
    requires i < |p.queue| && Ascending(p.queue) && StatusStep(p.queue[i].status, s)
    ensures UpdateWaiter(p, p.queue[i].ticket, s) == p.(queue := p.queue[i := p.queue[i].(status := s)])
  {
    var r := UpdateWaiter(p, p.queue[i].ticket, s);
    var q := p.queue[i := p.queue[i].(status := s)];
    forall j | 0 <= j < |q|
      ensures r.queue[j] == q[j]
    {
      if j != i {
        assert p.queue[j].ticket != p.queue[i].ticket;
      }
    }
  }

  /** Reuse shrinks the capacity the code reads as its limit. With limit 2,
      after one item is created, returned and taken again, only one item is
      out, yet `cap(free)` is 1, so the next `Get` queues instead of creating
      the second item, and `Count` reports no room left. */
  lemma CapacityDrift()
    ensures var p0 := New<nat>(2);
      var g1 := Get(p0, Mint, false);
      var p2 := Put(g1.pool, g1.got.item, NeverPick, 0).pool;
      var g3 := Get(p2, Mint, false);
      var g4 := Get(g3.pool, Mint, false);
      && g1.got == Created(0)
      && g3.got == Reused(0)
      && g3.pool.used == 1 && g3.pool.FreeCap() == 1
      && g4.got.Queued?
      && Count(g3.pool) == (1, 0)
  {
    assert Count(Pool<nat>.Pool(free := [], spare := 1, used := 1, queue := [], created := 1, nextTicket := 0)) == (1, 0);
    var p0 := New<nat>(2);
    CreateStep(p0);
    var p1: Pool<nat> := Pool(free := [], spare := 2, used := 1, queue := [], created := 1, nextTicket := 0);
    StoreStep(p1, 0);
    var p2: Pool<nat> := Pool(free := [0], spare := 1, used := 0, queue := [], created := 1, nextTicket := 0);
    ReuseStep(p2);
    var p3: Pool<nat> := Pool(free := [], spare := 1, used := 1, queue := [], created := 1, nextTicket := 0);
    QueueStep(p3, false);
  }

  /** Reuse followed by an `append` that reallocates can also raise the
      capacity above the limit. With limit 1: create, return, reuse (the
      slice now has capacity 0), return into the full slice with a `growth`
      of 2 (a capacity of 3, which the model allows; Go's `append` itself
      picks capacity 1 at this size), reuse; one item is out and `cap(free)`
      is 2, so the next `Get` calls the creator a second time and two items
      exist. `ExceedsAnyLimit` gives the run for every limit. */
  lemma ExceedsLimit()
    ensures Get(New<nat>(1), Mint, false)
      == GetStep(Pool(free := [], spare := 1, used := 1, queue := [], created := 1, nextTicket := 0), Created(0))
    ensures Put(Pool<nat>.Pool(free := [], spare := 1, used := 1, queue := [], created := 1, nextTicket := 0), 0, NeverPick, 0).pool
      == Pool(free := [0], spare := 0, used := 0, queue := [], created := 1, nextTicket := 0)
    ensures Get(Pool<nat>.Pool(free := [0], spare := 0, used := 0, queue := [], created := 1, nextTicket := 0), Mint, false)
      == GetStep(Pool(free := [], spare := 0, used := 1, queue := [], created := 1, nextTicket := 0), Reused(0))
    ensures Put(Pool<nat>.Pool(free := [], spare := 0, used := 1, queue := [], created := 1, nextTicket := 0), 0, NeverPick, 2).pool
      == Pool(free := [0], spare := 2, used := 0, queue := [], created := 1, nextTicket := 0)
    ensures Get(Pool<nat>.Pool(free := [0], spare := 2, used := 0, queue := [], created := 1, nextTicket := 0), Mint, false)
      == GetStep(Pool(free := [], spare := 2, used := 1, queue := [], created := 1, nextTicket := 0), Reused(0))
    ensures Get(Pool<nat>.Pool(free := [], spare := 2, used := 1, queue := [], created := 1, nextTicket := 0), Mint, false)
      == GetStep(Pool(free := [], spare := 2, used := 2, queue := [], created := 2, nextTicket := 0), Created(1))
  {
    ReuseReturnsSameItem();
    assert [] + [0] == [0];
    GrowStep(Pool(free := [], spare := 0, used := 1, queue := [], created := 1, nextTicket := 0), 0, 2);
    ReuseStep(Pool(free := [0], spare := 2, used := 0, queue := [], created := 1, nextTicket := 0));
    CreateStep(Pool(free := [], spare := 2, used := 1, queue := [], created := 1, nextTicket := 0));
  }

  /** `n` calls to `Get` in a row, none with its context done. */
  function Gets(p: Pool<nat>, n: nat): Pool<nat>
    decreases n
  {
    if n == 0 then p else Gets(Get(p, Mint, false).pool, n - 1)
  }

  /** One `Put` per item, in order, with nobody taking a hand-off; stops
      early at a waiter that is not ready. */
  function Puts(p: Pool<nat>, items: seq<nat>): Pool<nat>
    decreases |items|
  {
    if |items| == 0 || Scan(p.queue, NeverPick).Blocked? then p
    else Puts(Put(p, items[0], NeverPick, 0).pool, items[1..])
  }

  /** The items `0 .. n - 1`, in order. */
  function Range(n: nat): seq<nat>
  {
    seq(n, i => i)
  }

  /** With nothing idle, nobody queued and room for `n` more items out, `n`
      `Get`s each call the creator. */
  lemma {:induction false} GetsCreate(p: Pool<nat>, n: nat)
    requires p.free == [] && p.queue == [] && p.used + n <= p.FreeCap()
    ensures Gets(p, n) == p.(used := p.used + n, created := p.created + n)
    decreases n
  {
    if n > 0 {
      CreateStep(p);
      GetsCreate(p.(used := p.used + 1, created := p.created + 1), n - 1);
    }
  }

  /** With at least `n` items idle, `n` `Get`s take them from the front. */
  lemma {:induction false} GetsReuse(p: Pool<nat>, n: nat)
    requires n <= |p.free|
    ensures Gets(p, n) == p.(free := p.free[n..], used := p.used + n)
    decreases n
  {
    if n > 0 {
      ReuseStep(p);
      var p1 := p.(free := p.free[1..], used := p.used + 1);
      GetsReuse(p1, n - 1);
      assert p1.free[n - 1..] == p.free[n..];
    }
  }

  /** With nobody queued and spare room for every item, the `Put`s append
      the items to the idle slice without reallocating it. */
  lemma {:induction false} PutsStore(p: Pool<nat>, items: seq<nat>)
    requires p.queue == [] && |items| <= p.spare
    ensures Puts(p, items) == p.(free := p.free + items, spare := p.spare - |items|, used := p.used - |items|)
    decreases |items|
  {
    if |items| > 0 {
      assert Scan(p.queue, NeverPick) == Exhausted;
      StoreStep(p, items[0]);
      var p1 := p.(free := p.free + [items[0]], spare := p.spare - 1, used := p.used - 1);
      PutsStore(p1, items[1..]);
      assert p1.free + items[1..] == p.free + items;
    }
  }

  /** `ExceedsLimit` for every limit `L`: `L` `Get`s create `L` items, `L`
      `Put`s return them, one `Get` reuses item 0 (`cap(free)` drops to
      `L - 1`, full), its `Put` reallocates the slice with `growth` spare
      slots, `L` `Get`s empty it again, and as long as `growth` exceeds `L`
      the next `Get` calls the creator an `L + 1`-th time. With `L` 26, Go's
      `append` grows the slice from capacity 25 to 56, which is `growth` 30. */
  lemma ExceedsAnyLimit(L: nat, growth: nat)
    requires L >= 1 && growth > L
    ensures Gets(New<nat>(L), L)
      == Pool(free := [], spare := L, used := L, queue := [], created := L, nextTicket := 0)
    ensures Puts(Pool(free := [], spare := L, used := L, queue := [], created := L, nextTicket := 0), Range(L))
      == Pool(free := Range(L), spare := 0, used := 0, queue := [], created := L, nextTicket := 0)
    ensures Get(Pool(free := Range(L), spare := 0, used := 0, queue := [], created := L, nextTicket := 0), Mint, false)
      == GetStep(Pool(free := Range(L)[1..], spare := 0, used := 1, queue := [], created := L, nextTicket := 0), Reused(0))
    ensures Put(Pool(free := Range(L)[1..], spare := 0, used := 1, queue := [], created := L, nextTicket := 0), 0, NeverPick, growth).pool
      == Pool(free := Range(L)[1..] + [0], spare := growth, used := 0, queue := [], created := L, nextTicket := 0)
    ensures Gets(Pool(free := Range(L)[1..] + [0], spare := growth, used := 0, queue := [], created := L, nextTicket := 0), L)
      == Pool(free := [], spare := growth, used := L, queue := [], created := L, nextTicket := 0)
    ensures Get(Pool(free := [], spare := growth, used := L, queue := [], created := L, nextTicket := 0), Mint, false)
      == GetStep(Pool(free := [], spare := growth, used := L + 1, queue := [], created := L + 1, nextTicket := 0), Created(L))
  {
    GetsCreate(New<nat>(L), L);
    PutsStore(Pool(free := [], spare := L, used := L, queue := [], created := L, nextTicket := 0), Range(L));
    ReuseStep(Pool(free := Range(L), spare := 0, used := 0, queue := [], created := L, nextTicket := 0));
    GrowStep(Pool(free := Range(L)[1..], spare := 0, used := 1, queue := [], created := L, nextTicket := 0), 0, growth);
    GetsReuse(Pool(free := Range(L)[1..] + [0], spare := growth, used := 0, queue := [], created := L, nextTicket := 0), L);
    CreateStep(Pool(free := [], spare := growth, used := L, queue := [], created := L, nextTicket := 0));
  }

  /** With limit 1, `Get`, `Put`, `Get` hands back the same item without a
      second creator call; `Count` then reports one free slot fewer than the
      limit allows: `cap(free)` is 0, so it returns (1, -1). */
  lemma ReuseReturnsSameItem()
    ensures Get(New<nat>(1), Mint, false)
      == GetStep(Pool(free := [], spare := 1, used := 1, queue := [], created := 1, nextTicket := 0), Created(0))
    ensures Put(Pool<nat>.Pool(free := [], spare := 1, used := 1, queue := [], created := 1, nextTicket := 0), 0, NeverPick, 0).pool
      == Pool(free := [0], spare := 0, used := 0, queue := [], created := 1, nextTicket := 0)
    ensures Get(Pool<nat>.Pool(free := [0], spare := 0, used := 0, queue := [], created := 1, nextTicket := 0), Mint, false)
      == GetStep(Pool(free := [], spare := 0, used := 1, queue := [], created := 1, nextTicket := 0), Reused(0))
    ensures Count(Pool<nat>.Pool(free := [], spare := 0, used := 1, queue := [], created := 1, nextTicket := 0)) == (1, -1)
  {
    assert Count(Pool<nat>.Pool(free := [], spare := 0, used := 1, queue := [], created := 1, nextTicket := 0)) == (1, -1);
    CreateStep(New<nat>(1));
    StoreStep(Pool(free := [], spare := 1, used := 1, queue := [], created := 1, nextTicket := 0), 0);
    assert [] + [0] == [0];
    ReuseStep(Pool(free := [0], spare := 0, used := 0, queue := [], created := 1, nextTicket := 0));
    assert [0][1..] == [];
  }

  /** With limit 3: two `Get`s give `Count` (2, 1); one `Put` gives (1, 2). */
  lemma CountAfterGetsAndPut()
    ensures var p0 := New<nat>(3);
      var g1 := Get(p0, Mint, false);
      var g2 := Get(g1.pool, Mint, false);
      var p3 := Put(g2.pool, g2.got.item, NeverPick, 0).pool;
      && Count(g2.pool) == (2, 1)
      && Count(p3) == (1, 2)
      && p3.free == [1]
  {
    assert Count(Pool<nat>.Pool(free := [], spare := 3, used := 2, queue := [], created := 2, nextTicket := 0)) == (2, 1);
    assert Count(Pool<nat>.Pool(free := [1], spare := 2, used := 1, queue := [], created := 2, nextTicket := 0)) == (1, 2);
    var p0 := New<nat>(3);
    CreateStep(p0);
    var p1: Pool<nat> := Pool(free := [], spare := 3, used := 1, queue := [], created := 1, nextTicket := 0);
    CreateStep(p1);
    var p2: Pool<nat> := Pool(free := [], spare := 3, used := 2, queue := [], created := 2, nextTicket := 0);
    StoreStep(p2, 1);
  }

  /** With limit 1 and its item out, three `Get`s queue as tickets 0, 1, 2,
      none of them parked yet. */
  lemma ThreeGetsQueue()
    ensures Get(New<nat>(1), Mint, false).pool
      == Pool(free := [], spare := 1, used := 1, queue := [], created := 1, nextTicket := 0)
    ensures Get(Pool<nat>.Pool(free := [], spare := 1, used := 1, queue := [], created := 1, nextTicket := 0), Mint, false)
      == GetStep(Pool(free := [], spare := 1, used := 1,
                      queue := [Waiter(0, Pending)], created := 1, nextTicket := 1),
                 Queued(0))
    ensures Get(Pool<nat>.Pool(free := [], spare := 1, used := 1,
                               queue := [Waiter(0, Pending)], created := 1, nextTicket := 1),
                Mint, false)
      == GetStep(Pool(free := [], spare := 1, used := 1,
                      queue := [Waiter(0, Pending), Waiter(1, Pending)], created := 1, nextTicket := 2),
                 Queued(1))
    ensures Get(Pool<nat>.Pool(free := [], spare := 1, used := 1,
                               queue := [Waiter(0, Pending), Waiter(1, Pending)], created := 1, nextTicket := 2),
                Mint, false)
      == GetStep(Pool(free := [], spare := 1, used := 1,
                      queue := [Waiter(0, Pending), Waiter(1, Pending), Waiter(2, Pending)], created := 1, nextTicket := 3),
                 Queued(2))
  {
    CreateStep(New<nat>(1));
    QueueStep(Pool(free := [], spare := 1, used := 1, queue := [], created := 1, nextTicket := 0), false);
    assert [] + [Waiter(0, Pending)] == [Waiter(0, Pending)];
    QueueStep(Pool(free := [], spare := 1, used := 1, queue := [Waiter(0, Pending)], created := 1, nextTicket := 1), false);
    assert [Waiter(0, Pending)] + [Waiter(1, Pending)] == [Waiter(0, Pending), Waiter(1, Pending)];
    QueueStep(Pool(free := [], spare := 1, used := 1,
                   queue := [Waiter(0, Pending), Waiter(1, Pending)], created := 1, nextTicket := 2),
              false);
    assert [Waiter(0, Pending), Waiter(1, Pending)] + [Waiter(2, Pending)]
      == [Waiter(0, Pending), Waiter(1, Pending), Waiter(2, Pending)];
  }

  /** Ticket 0 parks on its channel, ticket 1's context fires, then ticket 2
      parks. */
  lemma WaitersMove()
    ensures UpdateWaiter(Pool<nat>.Pool(free := [], spare := 1, used := 1,
                                        queue := [Waiter(0, Pending), Waiter(1, Pending), Waiter(2, Pending)],
                                        created := 1, nextTicket := 3),
                         0, Receiving)
      == Pool(free := [], spare := 1, used := 1,
              queue := [Waiter(0, Receiving), Waiter(1, Pending), Waiter(2, Pending)],
              created := 1, nextTicket := 3)
    ensures UpdateWaiter(Pool<nat>.Pool(free := [], spare := 1, used := 1,
                                        queue := [Waiter(0, Receiving), Waiter(1, Pending), Waiter(2, Pending)],
                                        created := 1, nextTicket := 3),
                         1, Cancelled)
      == Pool(free := [], spare := 1, used := 1,
              queue := [Waiter(0, Receiving), Waiter(1, Cancelled), Waiter(2, Pending)],
              created := 1, nextTicket := 3)
    ensures UpdateWaiter(Pool<nat>.Pool(free := [], spare := 1, used := 1,
                                        queue := [Waiter(0, Receiving), Waiter(1, Cancelled), Waiter(2, Pending)],
                                        created := 1, nextTicket := 3),
                         2, Receiving)
      == Pool(free := [], spare := 1, used := 1,
              queue := [Waiter(0, Receiving), Waiter(1, Cancelled), Waiter(2, Receiving)],
              created := 1, nextTicket := 3)
  {
    var q0 := [Waiter(0, Pending), Waiter(1, Pending), Waiter(2, Pending)];
    var q1 := [Waiter(0, Receiving), Waiter(1, Pending), Waiter(2, Pending)];
    var q2 := [Waiter(0, Receiving), Waiter(1, Cancelled), Waiter(2, Pending)];
    var q3 := [Waiter(0, Receiving), Waiter(1, Cancelled), Waiter(2, Receiving)];
    assert q0[0 := Waiter(0, Receiving)] == q1;
    assert q1[1 := Waiter(1, Cancelled)] == q2;
    assert q2[2 := Waiter(2, Receiving)] == q3;
    MoveStep(Pool(free := [], spare := 1, used := 1, queue := q0, created := 1, nextTicket := 3), 0, Receiving);
    MoveStep(Pool(free := [], spare := 1, used := 1, queue := q1, created := 1, nextTicket := 3), 1, Cancelled);
    MoveStep(Pool(free := [], spare := 1, used := 1, queue := q2, created := 1, nextTicket := 3), 2, Receiving);
  }

  /** From there, the first `Put` hands the item to ticket 0; the second skips
      the cancelled ticket 1 and hands it to ticket 2, leaving the queue empty
      and nothing idle. */
  lemma HandOffSkipsCancelled()
    ensures var p: Pool<nat> := Pool(free := [], spare := 1, used := 1,
                                     queue := [Waiter(0, Receiving), Waiter(1, Cancelled), Waiter(2, Receiving)],
                                     created := 1, nextTicket := 3);
      var r1 := Put(p, 0, NeverPick, 0);
      var r2 := Put(r1.pool, 0, NeverPick, 0);
      && r1.handedTo == Some(0)
      && r2.handedTo == Some(2)
      && r2.pool.queue == [] && r2.pool.free == [] && r2.pool.used == 1
  {
    var q := [Waiter(0, Receiving), Waiter(1, Cancelled), Waiter(2, Receiving)];
    assert Scan(q, NeverPick) == Deliver(0);
    assert q[1..] == [Waiter(1, Cancelled), Waiter(2, Receiving)];
    assert Scan(q[1..][1..], NeverPick) == Deliver(0);
    assert Scan(q[1..], NeverPick) == Deliver(1);
  }

  /** With limit 1 and its item out, a `Get` whose context is already done
      queues as a cancelled waiter; the `Put` that follows skips it and stores
      the item, so the waiter never receives it. */
  lemma CancelledWaiterGetsNothing()
    ensures var p0 := Get(New<nat>(1), Mint, false).pool;
      var g := Get(p0, Mint, true);
      var r := Put(g.pool, 0, NeverPick, 0);
      && g.got == Queued(0)
      && r.handedTo == None
      && r.pool.free == [0] && r.pool.used == 0 && r.pool.queue == []
  {
    var p0 := New<nat>(1);
    CreateStep(p0);
    var p1: Pool<nat> := Pool(free := [], spare := 1, used := 1, queue := [], created := 1, nextTicket := 0);
    QueueStep(p1, true);
    var q := [Waiter(0, Cancelled)];
    assert [] + [Waiter(0, Cancelled)] == q;
    assert Scan(q, NeverPick) == Exhausted by {
      assert q[1..] == [];
    }
  }

  /** A waiter that has returned `nil` cannot park again: asking it to move
      to Both leaves it Cancelled, so even a scheduler that would always pick
      the delivery sees it skipped, and the item is stored. */
  lemma LeftWaiterStaysLeft()
    ensures var p: Pool<nat> := Pool(free := [], spare := 1, used := 1,
                                     queue := [Waiter(0, Cancelled)], created := 1, nextTicket := 1);
      var q := UpdateWaiter(p, 0, Both);
      var r := Put(q, 0, AlwaysPick, 0);
      && q == p
      && r.handedTo == None
      && r.pool.free == [0] && r.pool.used == 0
  {
    var p: Pool<nat> := Pool(free := [], spare := 1, used := 1,
                             queue := [Waiter(0, Cancelled)], created := 1, nextTicket := 1);
    assert UpdateWaiter(p, 0, Both).queue == [Waiter(0, Cancelled)];
    assert Scan([Waiter(0, Cancelled)], AlwaysPick) == Exhausted by {
      assert [Waiter(0, Cancelled)][1..] == [];
    }
  }

  /** One corrected `Get` that reuses the front idle item. */
  lemma FixedReuseStep(p: Fixed<nat>)
    requires |p.free| > 0
    ensures FixedGet(p, Mint, false) == FixedGetStep(p.(free := p.free[1..], used := p.used + 1), Reused(p.free[0]))
  {
  }

  /** One corrected `Get` that calls the creator. */
  lemma FixedCreateStep(p: Fixed<nat>)
    requires p.free == [] && p.used < p.limit
    ensures FixedGet(p, Mint, false) == FixedGetStep(p.(used := p.used + 1, created := p.created + 1), Created(p.created))
  {
  }

  /** One corrected `Put` with nobody waiting. */
  lemma FixedStoreStep(p: Fixed<nat>, item: nat)
    requires p.queue == []
    ensures FixedPut(p, item, NeverPick) == FixedPutStep(p.(free := p.free + [item], used := p.used - 1), None)
  {
    assert Scan(p.queue, NeverPick) == Exhausted;
  }

  /** The run that drifts in `LimitedPool`: with limit 2, after create, return
      and reuse, `Count` reports (1, 1) and the next `Get` creates the second
      item instead of queueing. */
  lemma NoCapacityDrift()
    ensures var p0 := FixedNew<nat>(2);
      var g1 := FixedGet(p0, Mint, false);
      var p2 := FixedPut(g1.pool, g1.got.item, NeverPick).pool;
      var g3 := FixedGet(p2, Mint, false);
      var g4 := FixedGet(g3.pool, Mint, false);
      && g3.got == Reused(0)
      && FixedCount(g3.pool) == (1, 1)
      && g4.got == Created(1)
      && FixedCount(g4.pool) == (2, 0)
  {
    assert FixedCount(Fixed<nat>.Fixed(limit := 2, free := [], used := 1, queue := [], created := 1, nextTicket := 0)) == (1, 1);
    assert FixedCount(Fixed<nat>.Fixed(limit := 2, free := [], used := 2, queue := [], created := 2, nextTicket := 0)) == (2, 0);
    FixedCreateStep(FixedNew<nat>(2));
    FixedStoreStep(Fixed(limit := 2, free := [], used := 1, queue := [], created := 1, nextTicket := 0), 0);
    assert [] + [0] == [0];
    FixedReuseStep(Fixed(limit := 2, free := [0], used := 0, queue := [], created := 1, nextTicket := 0));
    assert [0][1..] == [];
    FixedCreateStep(Fixed(limit := 2, free := [], used := 1, queue := [], created := 1, nextTicket := 0));
  }
}

=== FILE: traces.dfy ===
/**
 Runs of `LimitedPool` operations: a sequence of events applied one at a
 time, each an atomic transition. Whatever the interleaving, the pool keeps
 its invariant, and hand-offs go to strictly increasing tickets, so every
 waiter is served at most once and in arrival order.
 */
module PoolTraces {
  import opened LimitedPool

  /** One atomic step: a `Get`, a `Put`, or a waiter's status changing. */
  datatype Event<T> =
    | Acquire(ctxDone: bool)
    | Release(item: T, pick: nat -> bool, growth: nat)
    | Advance(ticket: nat, status: WaiterStatus)

  /** Applies one event; `None` when a `Put` would block on a waiter that is
      not yet ready. The second component lists the ticket served, if any. */
  function Step<T>(p: Pool<T>, creator: nat -> T, e: Event<T>): Option<(Pool<T>, seq<nat>)>
  {
    match e
    case Acquire(ctxDone) =>
      Some((Get(p, creator, ctxDone).pool, []))
    case Release(item, pick, growth) =>
      if Scan(p.queue, pick).Blocked? then None
      else
        var r := Put(p, item, pick, growth);
        Some((r.pool, if r.handedTo.Some? then [r.handedTo.value] else []))
    case Advance(ticket, status) =>
      Some((UpdateWaiter(p, ticket, status), []))
  }

  /** Applies the events in order and collects the tickets served. */
  function Run<T>(p: Pool<T>, creator: nat -> T, events: seq<Event<T>>): Option<(Pool<T>, seq<nat>)>
    decreases |events|
  {
    if |events| == 0 then Some((p, []))
    else
      match Step(p, creator, events[0])
      case None => None
      case Some((p1, h1)) =>
        match Run(p1, creator, events[1..])
        case None => None
        case Some((pn, hs)) => Some((pn, h1 + hs))
  }

  predicate StrictlyAscending(s: seq<nat>) {
    forall i, j :: 0 <= i < j < |s| ==> s[i] < s[j]
  }

  /** One step keeps the invariant, never lowers the lowest servable ticket,
      and serves at most one ticket, lying between the old and new lowest. */
  lemma StepKeepsInvariant<T>(p: Pool<T>, creator: nat -> T, e: Event<T>)
    requires Valid(p) && Step(p, creator, e).Some?
    ensures var (p1, h1) := Step(p, creator, e).value;
      && Valid(p1)
      && LowTicket(p) <= LowTicket(p1)
      && |h1| <= 1
      && (|h1| == 1 ==> LowTicket(p) <= h1[0] < LowTicket(p1))
  {
    match e
    case Acquire(_) =>
    case Release(item, pick, growth) =>
      PutHandsOffInArrivalOrder(p, item, pick, growth);
    case Advance(_, _) =>
  }

  /** A non-empty run is its first step followed by the run of the rest. */
  lemma RunUnfold<T>(p: Pool<T>, creator: nat -> T, events: seq<Event<T>>)
    requires |events| > 0 && Run(p, creator, events).Some?
    ensures Step(p, creator, events[0]).Some?
    ensures var (p1, h1) := Step(p, creator, events[0]).value;
      && Run(p1, creator, events[1..]).Some?
      && Run(p, creator, events).value.0 == Run(p1, creator, events[1..]).value.0
      && Run(p, creator, events).value.1 == h1 + Run(p1, creator, events[1..]).value.1
  {
  }

  /** Gluing the tickets served by one step to those served by the rest of
      the run keeps them strictly ascending. */
  lemma ServedConcat(lo: nat, mid: nat, hi: nat, h1: seq<nat>, hs: seq<nat>)
    requires |h1| <= 1 && (|h1| == 1 ==> lo <= h1[0] < mid) && lo <= mid <= hi
    requires StrictlyAscending(hs) && forall i :: 0 <= i < |hs| ==> mid <= hs[i] < hi
    ensures StrictlyAscending(h1 + hs)
    ensures forall i :: 0 <= i < |h1 + hs| ==> lo <= (h1 + hs)[i] < hi
  {
    var served := h1 + hs;
    forall i, j | 0 <= i < j < |served|
      ensures served[i] < served[j]
    {
      if i < |h1| {
        assert served[j] == hs[j - |h1|];
      } else {
        assert served[i] == hs[i - |h1|] && served[j] == hs[j - |h1|];
      }
    }
    forall i | 0 <= i < |served|
      ensures lo <= served[i] < hi
    {
      if i >= |h1| {
        assert served[i] == hs[i - |h1|];
      }
    }
  }

  /** Over any run from a valid pool: the invariant holds at the end, and the
      served tickets strictly increase and are never below the lowest ticket
      that was servable at the start. */
  lemma {:induction false} RunKeepsInvariant<T>(p: Pool<T>, creator: nat -> T, events: seq<Event<T>>)
    requires Valid(p) && Run(p, creator, events).Some?
    ensures var (q, served) := Run(p, creator, events).value;
      && Valid(q)
      && LowTicket(p) <= LowTicket(q)
      && StrictlyAscending(served)
      && (forall i :: 0 <= i < |served| ==> LowTicket(p) <= served[i] < LowTicket(q))
    decreases |events|
  {
    if |events| > 0 {
      RunUnfold(p, creator, events);
      var (p1, h1) := Step(p, creator, events[0]).value;
      StepKeepsInvariant(p, creator, events[0]);
      RunKeepsInvariant(p1, creator, events[1..]);
      var (q, hs) := Run(p1, creator, events[1..]).value;
      ServedConcat(LowTicket(p), LowTicket(p1), LowTicket(q), h1, hs);
    }
  }

  /** The waiters a `Put` removes from the front of the queue all lie below
      the lowest ticket left to serve. */
  lemma RemovedBelowLowTicket<T>(p: Pool<T>, item: T, pick: nat -> bool, growth: nat)
    requires Valid(p) && !Scan(p.queue, pick).Blocked?
    ensures var r := Put(p, item, pick, growth);
      forall j :: 0 <= j < |p.queue| - |r.pool.queue| ==> p.queue[j].ticket < LowTicket(r.pool)
  {
    var r := Put(p, item, pick, growth);
    var n := |p.queue| - |r.pool.queue|;
    forall j | 0 <= j < n
      ensures p.queue[j].ticket < LowTicket(r.pool)
    {
      if |r.pool.queue| > 0 {
        assert r.pool.queue[0] == p.queue[n];
      }
    }
  }

  /** A waiter that a `Put` skips (its context fired first) is resolved for
      good: no later step of any run hands it an item. */
  lemma SkippedWaiterNeverServed<T>(p: Pool<T>, item: T, pick: nat -> bool, growth: nat,
                                    creator: nat -> T, later: seq<Event<T>>)
    requires Valid(p) && !Scan(p.queue, pick).Blocked?
    requires Run(Put(p, item, pick, growth).pool, creator, later).Some?
    ensures var r := Put(p, item, pick, growth);
      var served := Run(r.pool, creator, later).value.1;
      forall j :: 0 <= j < |p.queue| - |r.pool.queue| && r.handedTo != Some(p.queue[j].ticket) ==>
        && Skips(p.queue[j], pick)
        && p.queue[j].ticket !in served
  {
    var r := Put(p, item, pick, growth);
    RemovedBelowLowTicket(p, item, pick, growth);
    RunKeepsInvariant(r.pool, creator, later);
    var served := Run(r.pool, creator, later).value.1;
    forall j | 0 <= j < |p.queue| - |r.pool.queue| && r.handedTo != Some(p.queue[j].ticket)
      ensures Skips(p.queue[j], pick) && p.queue[j].ticket !in served
    {
      if r.handedTo.Some? {
        // the recipient is the last waiter removed, so `j` lies before it
        assert j < |p.queue| - |r.pool.queue| - 1;
      }
    }
  }

  /** Ticket `t` belongs to a queued waiter that has taken its cancellation
      case and returned `nil`. */
  predicate CancelledIn(q: seq<Waiter>, t: nat) {
    exists i :: 0 <= i < |q| && q[i] == Waiter(t, Cancelled)
  }

  /** `Get` only appends to the queue, so every queued waiter keeps its place. */
  lemma GetKeepsWaiter<T>(p: Pool<T>, creator: nat -> T, ctxDone: bool, i: nat)
    requires i < |p.queue|
    ensures var q := Get(p, creator, ctxDone).pool.queue;
      i < |q| && q[i] == p.queue[i]
  {
    var r := Get(p, creator, ctxDone);
    if r.got.Queued? {
      assert r.pool.queue[i] == r.pool.queue[..|p.queue|][i];
    }
  }

  /** A cancelled waiter stays cancelled whatever the environment does. */
  lemma AdvanceKeepsCancelled<T>(p: Pool<T>, ticket: nat, status: WaiterStatus, i: nat)
    requires i < |p.queue| && p.queue[i].status == Cancelled
    ensures var q := UpdateWaiter(p, ticket, status).queue;
      i < |q| && q[i] == p.queue[i]
  {
  }

  /** `Put` never hands the item to a cancelled waiter. It either removes the
      waiter for good (its ticket falls below the lowest one left) or leaves it
      queued, unchanged, behind the recipient. */
  lemma PutSkipsCancelled<T>(p: Pool<T>, item: T, pick: nat -> bool, growth: nat, i: nat)
    requires Valid(p) && !Scan(p.queue, pick).Blocked?
    requires i < |p.queue| && p.queue[i].status == Cancelled
    ensures var r := Put(p, item, pick, growth);
      var n := |p.queue| - |r.pool.queue|;
      && r.handedTo != Some(p.queue[i].ticket)
      && (i < n ==> p.queue[i].ticket < LowTicket(r.pool))
      && (i >= n ==> r.pool.queue[i - n] == p.queue[i])
      && CancelledOrGone(r.pool, p.queue[i].ticket)
  {
    var r := Put(p, item, pick, growth);
    var n := |p.queue| - |r.pool.queue|;
    var t := p.queue[i].ticket;
    if r.handedTo.Some? {
      // the recipient, at `n - 1`, takes the item; waiter `i` does not
      assert p.queue[n - 1].status != Cancelled;
      if i < n - 1 {
        assert t < p.queue[n - 1].ticket;
        if |r.pool.queue| > 0 {
          assert r.pool.queue[0] == p.queue[n];
          assert t < p.queue[n].ticket;
        }
      } else {
        assert r.pool.queue[i - n] == p.queue[i];
        assert p.queue[n - 1].ticket < t;
        assert CancelledIn(r.pool.queue, t);
      }
    } else {
      // every waiter was skipped and the queue is empty
      assert t < p.nextTicket;
    }
  }

  /** After a step, the cancelled waiter `t` is still queued and cancelled,
      or has left the queue for good. */
  predicate CancelledOrGone<T>(p: Pool<T>, t: nat) {
    CancelledIn(p.queue, t) || t < LowTicket(p)
  }

  lemma CancelledAcquire<T>(p: Pool<T>, creator: nat -> T, ctxDone: bool, i: nat)
    requires i < |p.queue| && p.queue[i].status == Cancelled
    ensures var (p1, h1) := Step(p, creator, Acquire(ctxDone)).value;
      CancelledOrGone(p1, p.queue[i].ticket) && h1 == []
  {
    var q := Get(p, creator, ctxDone).pool;
    GetKeepsWaiter(p, creator, ctxDone, i);
    assert q.queue[i] == Waiter(p.queue[i].ticket, Cancelled);
  }

  lemma CancelledRelease<T>(p: Pool<T>, creator: nat -> T, item: T, pick: nat -> bool, growth: nat, i: nat)
    requires Valid(p) && !Scan(p.queue, pick).Blocked?
    requires i < |p.queue| && p.queue[i].status == Cancelled
    ensures var (p1, h1) := Step(p, creator, Release(item, pick, growth)).value;
      CancelledOrGone(p1, p.queue[i].ticket) && p.queue[i].ticket !in h1
  {
    PutSkipsCancelled(p, item, pick, growth, i);
  }

  lemma CancelledAdvance<T>(p: Pool<T>, creator: nat -> T, ticket: nat, status: WaiterStatus, i: nat)
    requires i < |p.queue| && p.queue[i].status == Cancelled
    ensures var (p1, h1) := Step(p, creator, Advance(ticket, status)).value;
      CancelledOrGone(p1, p.queue[i].ticket) && h1 == []
  {
    AdvanceKeepsCancelled(p, ticket, status, i);
    assert UpdateWaiter(p, ticket, status).queue[i] == Waiter(p.queue[i].ticket, Cancelled);
  }

  /** One step never serves a cancelled waiter. Afterwards the waiter is either
      still queued and cancelled, or gone from the queue for good. */
  lemma CancelledStep<T>(p: Pool<T>, creator: nat -> T, e: Event<T>, t: nat)
    requires Valid(p) && Step(p, creator, e).Some? && CancelledIn(p.queue, t)
    ensures var (p1, h1) := Step(p, creator, e).value;
      CancelledOrGone(p1, t) && t !in h1
  {
    var i :| 0 <= i < |p.queue| && p.queue[i] == Waiter(t, Cancelled);
    match e
    case Acquire(ctxDone) =>
      CancelledAcquire(p, creator, ctxDone, i);
    case Release(item, pick, growth) =>
      CancelledRelease(p, creator, item, pick, growth, i);
    case Advance(ticket, status) =>
      CancelledAdvance(p, creator, ticket, status, i);
  }

  /** Over any run, no item goes to a waiter that is cancelled at the start, nor
      to one that has already left the queue. */
  lemma {:induction false} CancelledNeverServed<T>(p: Pool<T>, creator: nat -> T, events: seq<Event<T>>, t: nat)
    requires Valid(p) && Run(p, creator, events).Some?
    requires CancelledOrGone(p, t)
    ensures t !in Run(p, creator, events).value.1
    decreases |events|
  {
    if t < LowTicket(p) {
      RunKeepsInvariant(p, creator, events);
    } else if |events| > 0 {
      RunUnfold(p, creator, events);
      var (p1, h1) := Step(p, creator, events[0]).value;
      CancelledStep(p, creator, events[0], t);
      StepKeepsInvariant(p, creator, events[0]);
      CancelledNeverServed(p1, creator, events[1..], t);
    }
  }

  /** From a freshly made pool, every run keeps the item count equal to the
      number of creator calls and serves each waiter at most once, in order. */
  lemma RunFromNew<T>(limit: nat, creator: nat -> T, events: seq<Event<T>>)
    requires Run(New<T>(limit), creator, events).Some?
    ensures var (q, served) := Run(New<T>(limit), creator, events).value;
      && q.used + |q.free| == q.created
      && StrictlyAscending(served)
      && (|q.queue| > 0 ==> |q.free| == 0 && q.used >= q.FreeCap())
  {
    RunKeepsInvariant(New<T>(limit), creator, events);
  }
}
